=== FILE: README.md ===
# Rayhunter bridge: extractor and reconciler

A Dafny model of the decision-making core of `rayhunter_bridge.py`. The bridge
polls a Rayhunter device over HTTP and mirrors its warning state to an MQTT
broker. The model covers three parts of it:

- **The extractor.** One poll reduces three possible JSON documents to a
  canonical pair: a warning count and the newest report id. The documents are
  system-stats, the QMDL manifest and one analysis report. The model covers
  `get_stats`, `parse_newest_entry` (with its inner `_id`),
  `count_warnings_from_manifest_entry` and `count_warnings_from_report` (with
  its inner `walk`). It also covers the tier combination at the top of the poll
  loop, including which endpoints are fetched.
- **The reconciler.** Given the held state, the pair, the clock readings and the
  manual triggers drained in this cycle, one step returns:
  - the new state;
  - the ordered list of `mqtt_publish` calls;
  - the status line it prints, if any.

  The step runs, in order: the "meaningful change" gate, the forced synthetic
  alert, the manual triggers, the auto-clear, and the de-duplicated status line.
- **The notifier's field selection.** `mqtt_publish` decides which topics it
  sends and what payloads they carry.

Python's semantics are modelled where the code relies on them:

- `dict.get` returns the first binding of the key (module `Json`).
- Truthiness and the value of an `a or b or c` chain (`Json`).
- `int()` on JSON values (`PyInt`). It skips ASCII and non-ASCII whitespace
  around the number, but not the ASCII separators U+001C to U+001F. It accepts
  a sign and decimal digits, maps bools to 0/1, and fails on None, lists and
  dicts.
- `str()` of a JSON value, built from Python's `repr` of dicts, lists and
  strings (`PyText`).
- Case-insensitive `re.search` and `re.findall(r"\bwarning\b", …, re.I)`
  (`PyText`).
- `max(…, key=…)`, whose ties go to the first maximal element (`Extractor`).

Modules:

| file | module | contents |
|---|---|---|
| json.dfy | `Json` | JSON values, `Option`, lookup, truthiness, `or` chains |
| pyint.dfy | `PyInt` | `int()` coercion, decimal rendering, the parse/render round trip |
| pytext.dfy | `PyText` | ASCII case folding, regex matching, the `warning` word count, `str()` |
| extractor.dfy | `Extractor` | the three tiers and their combination |
| extractor_facts.dfy | `ExtractorFacts` | properties relating the extractor's functions |
| reconciler.dfy | `Reconciler` | state, events, one cycle's step, `mqtt_publish` |
| reconciler_facts.dfy | `ReconcilerFacts` | properties across one or several steps |
| bridge.dfy | `Bridge` | extraction followed by the step: one whole poll cycle |

## Model

| member | source | states |
|---|---|---|
| Json.GetFirstBinding | rayhunter_bridge.py:73-74 | A key that no binding has gives None. Otherwise the result is the value of the key's first binding. |
| Json.OrChainIndex | rayhunter_bridge.py:73-74 | An `or` chain evaluates to the first truthy operand. When no operand is truthy, it evaluates to the last operand. |
| Json.FirstSomeIndex | rayhunter_bridge.py:87-95 | An alias loop stops at the first alias that produces a value. It produces nothing exactly when no alias does. |
| PyInt.ParseDecimal | rayhunter_bridge.py:99 | `int(str(n)) == n` for every integer `n`, negative ones included. |
| PyInt.IntSkipsPythonWhitespace | rayhunter_bridge.py:75-76 | `int()` skips a no-break space and an ideographic space around the digits, and tab and newline around a signed number. It rejects the ASCII file separator before the digits and a space between them. |
| PyInt.DigitsValueOfDigits | rayhunter_bridge.py:234 | The digits rendered for a natural number read back as that number. |
| PyText.MatchIgnoresCase | rayhunter_bridge.py:142 | For every text, position and lower-case pattern, the pattern matches there exactly when it matches the ASCII-lower-cased text there. |
| PyText.SearchIgnoresCase | rayhunter_bridge.py:142 | A case-insensitive search finds a lower-case pattern in a text exactly when it finds it in the lower-cased text. |
| PyText.MatchPositionsExact | rayhunter_bridge.py:150 | The listed positions are exactly those where a case-insensitive whole-word `warning` starts, in strictly increasing order. |
| PyText.SkipPastMatch | rayhunter_bridge.py:150 | After a match, the next match starts at or after the match's end. So resuming the scan there, as findall does, loses nothing. |
| PyText.FindAllCountsMatches | rayhunter_bridge.py:150 | The findall count from any position equals the number of match positions from there. |
| Extractor.GetStats | rayhunter_bridge.py:68-81 | A document that is not an object gives (None, None). Otherwise each field comes from the alias the `or` chain picks. The count is `int()` of it, or None where `int()` raises. The id is `str()` of it, or None. |
| Extractor.IdOf | rayhunter_bridge.py:86-95 | `_id` gives the first alias whose value is not a bool and coerces with `int()`. It gives None exactly when no alias does. |
| Extractor.NewestIndex | rayhunter_bridge.py:96-98 | Gives None exactly when no element has an id. Otherwise it picks a position holding the largest id, with no earlier position holding that id. |
| Extractor.NewestIsUnique | rayhunter_bridge.py:97-98 | Only one position satisfies "largest id, earliest among equals", so the choice is determined. |
| Extractor.NewestChosen | rayhunter_bridge.py:96-99 | Whenever a position is the newest, that entry is returned, with the decimal text of its id as the report id. |
| Extractor.ParseNewestEntry | rayhunter_bridge.py:83-107 | A non-list or empty manifest gives (None, None). If any element has an id, it gives the newest such element and the decimal text of its id. Otherwise it gives the last element (None when that is not an object) and `str()` of its first non-None id alias. |
| Extractor.FallbackId | rayhunter_bridge.py:100-106 | Some exactly when some id alias is present and not None. The value is `str()` of the first such alias. |
| Extractor.CountFromManifestEntry | rayhunter_bridge.py:109-118 | A non-object gives None. Otherwise it gives `max(0, int(v))` for the first alias that coerces. It gives None exactly when no alias coerces, and is never negative. |
| Extractor.LastSeverity | rayhunter_bridge.py:136-141 | The severity `walk` keeps is the string value of the last key that lower-cases to `severity`, `level`, `type` or `class`. It is None exactly when there is no such key. |
| Extractor.WalkAtMostObjects | rayhunter_bridge.py:133-147 | `walk` never counts more than the number of objects nested in the report. |
| Extractor.CountFromReport | rayhunter_bridge.py:120-150 | Never negative, and None gives 0. For an object, the first dotted path that coerces gives `max(0, int(·))`. Otherwise the result is the severity scan if that is non-zero, else the whole-word `warning` count of `str(report)`. |
| Extractor.Extract | rayhunter_bridge.py:280-290 | Always yields a count. Stats alone decide when both stats fields are present. Otherwise the manifest is fetched and a stats id is preferred. The report is fetched exactly when the manifest entry gave no count and the id is non-empty, and it is fetched for that id. A missing stats count becomes the manifest or report count, or 0. |
| ExtractorFacts.ZeroCountFallsThrough | rayhunter_bridge.py:73-78 | A `warningCount` of 0 is falsy, so with the other aliases absent the stats tier yields no count. |
| ExtractorFacts.PreferredStatsResolve | rayhunter_bridge.py:73-80 | A non-zero `warningCount` and a non-empty `lastReportId` resolve both stats fields directly. |
| ExtractorFacts.EmptyIdKeptFromLastAlias | rayhunter_bridge.py:74-80 | An empty id under the last alias survives the chain as the empty string, not as None. |
| ExtractorFacts.NewestIdReadsBack | rayhunter_bridge.py:96-99 | When some entry has an id, the returned report id reads back through `int()` as the chosen entry's id. That id is at least every other entry's id. |
| ExtractorFacts.LargerIdIsNewest | rayhunter_bridge.py:96-98 | Of two ids `a < b`, the position holding `b` is chosen in either order, also with an id-less entry between them. |
| ExtractorFacts.TieGoesToFirst | rayhunter_bridge.py:97-98 | When two entries tie on the largest id, the entry returned carries that id and sits at or before the earlier of the two, never at the later one. |
| ExtractorFacts.BoolIdSkippedBoolCountKept | rayhunter_bridge.py:89-92 | `_id` skips a boolean id, but a boolean manifest count is `int(True) == 1`. |
| ExtractorFacts.TextFallbackCountsWords | rayhunter_bridge.py:122-150 | A report, object or not, where no dotted count path coerces and the severity scan finds nothing, is counted by its whole-word `warning` matches. |
| ExtractorFacts.SeverityCountBounded | rayhunter_bridge.py:132-149 | When the severity scan decides the count, the count is positive and at most the number of objects. |
| ExtractorFacts.SeverityMatchIgnoresCase | rayhunter_bridge.py:142 | For every severity string, it flags a warning exactly when its lower-cased form does. |
| ExtractorFacts.UpperCaseSeveritiesFlagged | rayhunter_bridge.py:142 | As a consequence, "Critical" and "WARN" both flag a warning. |
| ExtractorFacts.CriticalSeverityCounts | rayhunter_bridge.py:140-143 | An object whose `level` is "Critical" counts once: the match ignores case. |
| Reconciler.Init | rayhunter_bridge.py:271-276 | Starts with count 0, no id, alert off, an empty last line and no clear deadline. When the forced alert is enabled, its first time is exactly start plus the interval; otherwise it is 0. |
| Reconciler.Gate | rayhunter_bridge.py:292-298 | Publishes one event exactly when the id, the count or the alert differs from the stored one, and then stores the triple. Afterwards the stored triple always equals the observation. The timers are untouched. |
| Reconciler.ForcedAlert | rayhunter_bridge.py:300-306 | When due, publishes one alert with the stored id and count and turns the alert on. It reschedules one interval after now, strictly later, and re-arms the clear deadline when auto-clear is on. Otherwise nothing changes. |
| Reconciler.DrainManual | rayhunter_bridge.py:308-317 | Publishes one alert per queued trigger, all with the stored id and count. The alert ends on, and the clear deadline is armed from the last trigger's clock reading. |
| Reconciler.AutoClear | rayhunter_bridge.py:319-322 | Once an armed deadline is reached, publishes one clear event, turns the alert off and disarms. Otherwise nothing changes. |
| Reconciler.HeartbeatOk | rayhunter_bridge.py:324 | With a count present, the status line begins with `hb=ok`. |
| Reconciler.Reconcile | rayhunter_bridge.py:292-322 | The stored id and count are the observation's, and every event carries them. The stored alert is the alert last published, or unchanged when nothing was published. Besides one alert per manual trigger, at most three events are published. |
| Reconciler.ReconcileTimers | rayhunter_bridge.py:300-322 | The forced schedule moves exactly when the forced alert fired, to one interval after now. A clear deadline is never left armed once reached. |
| Reconciler.Step | rayhunter_bridge.py:292-327 | Keeps every property of the publishing part. In addition, the stored status line describes the new state, and it is printed exactly when it differs from the previous one. |
| Reconciler.Publish | rayhunter_bridge.py:226-234 | Nothing is published without a client. Otherwise there is one message per field that is not None: the alert first, as ON/OFF, then the id, then the count. The count payload is all digits and reads back as the count clamped at 0. |
| ReconcilerFacts.QuietCyclePublishesOnChange | rayhunter_bridge.py:296-298 | With no timer or trigger acting, a cycle publishes exactly one event when the observation changed, and none otherwise. |
| ReconcilerFacts.RepeatIsSilent | rayhunter_bridge.py:292-298 | Feeding the same pair twice, with alert-on-new off and quiet timers, the second cycle publishes nothing, prints nothing and keeps the state. |
| ReconcilerFacts.MissingCountAlwaysPublishes | rayhunter_bridge.py:296-297 | A missing count never equals the stored integer, so each such cycle publishes. |
| ReconcilerFacts.WarningsRaiseOneAlert | rayhunter_bridge.py:292-298 | Warnings that appear under an unchanged id raise exactly one alert event and turn the alert on. |
| ReconcilerFacts.NewReportAlertLastsOneCycle | rayhunter_bridge.py:292-298 | With alert-on-new and no warnings, a new id raises the alert for one cycle. The next cycle with the same id lowers it. |
| ReconcilerFacts.ReportIdCanBeLost | rayhunter_bridge.py:296-298 | A cycle that finds no id replaces the stored id with None and publishes that. |
| ReconcilerFacts.FirstForcedAlertAfterInterval | rayhunter_bridge.py:275 | From the initial state, the forced alert fires exactly when the clock reaches start plus the interval. |
| ReconcilerFacts.ForcedAlertWithdrawnNextPoll | rayhunter_bridge.py:292-306 | A forced alert with no real warnings is withdrawn by the gate at the very next poll, while the clear deadline stays armed. |
| ReconcilerFacts.AutoClearFiresOnce | rayhunter_bridge.py:319-322 | A reached deadline ends the cycle with a single clear event, alert off and the deadline disarmed. No later time clears again until it is re-armed. |
| ReconcilerFacts.ManualTriggersArmFromLast | rayhunter_bridge.py:308-317 | Every manual trigger publishes an alert as the cycle's final events, whether or not the forced alert also fired. The clear deadline is the last trigger's reading plus the auto-clear delay. |
| ReconcilerFacts.PublishedCountNeverNegative | rayhunter_bridge.py:234 | A published count payload is never negative and reads back as `max(0, count)`. |
| ReconcilerFacts.NegativeCountStoredUnclamped | rayhunter_bridge.py:75-76 | A negative stats count is stored and handed to the notifier as is. Only the notifier's payload is clamped, to "0". |
| Bridge.Cycle | rayhunter_bridge.py:278-327 | After a whole cycle the stored pair is the extracted one. The status line always reports `hb=ok`, because extraction never yields a missing count. |
| Bridge.CycleRepeatIsSilent | rayhunter_bridge.py:278-298 | Polling unchanged documents again, with alert-on-new off and quiet timers, publishes and prints nothing. |
| Bridge.StatsDecideTheCycle | rayhunter_bridge.py:280-282 | A stats document with a non-zero count and a non-empty id is the only fetch, and the cycle stores its pair. |

### Behaviours of the code worth noting

- The stats count is not clamped. `int()` of a negative `warningCount` is kept, compared and stored; only the MQTT payload clamps it (`NegativeCountStoredUnclamped`).
- The stored report id can revert to None. This happens when a later cycle finds none (`ReportIdCanBeLost`).
- The status line renders a missing id as `None`, Python's f-string rendering of None.
- A forced alert with no real warnings does not wait for the auto-clear. The next poll's gate sees the data-derived alert (off) differ from the stored one (on), and publishes OFF at once. The still-armed deadline then publishes a second OFF later (`ForcedAlertWithdrawnNextPoll`).
- With alert-on-new, the alert for a new report lasts one cycle. The next cycle's id equals the stored one (`NewReportAlertLastsOneCycle`).
- The report endpoint is fetched even when the stats count is known, if the stats id is missing and the manifest entry has no count. The fetched count is then discarded (`Extract`).
- Among entries with equal largest id, the first one wins. This is the tie rule of Python's `max` (`TieGoesToFirst`).
- Extraction never leaves the count missing, so `hb=down` is never printed (`Bridge.Cycle`).

## Left out

- HTTP fetching is not modelled: `json_get`, retries, backoff, timeouts and the JSON text decoder. A fetch is an `Option<JSON>` parameter. It is None only in the cases the bridge turns into None: an `HTTPError` or `URLError` on the last retry (line 52), or a body that raises `JSONDecodeError` (line 64). The model does not cover the fetch failures that escape `json_get`, which end the program through lines 338-341. The first is a report id at line 289 that makes the URL invalid: an inner space, a control character or DEL raises `InvalidURL`, and a non-ASCII character raises `UnicodeEncodeError`. The model still fetches that report and completes the cycle. The second is a transport error that `urllib` does not wrap in `URLError`, such as a read timeout or `RemoteDisconnected` while reading the response. The third is a body holding an integer literal longer than 4300 digits: `json.loads` raises a plain `ValueError` for it.
- MQTT connection setup, discovery messages, availability topics and teardown are not modelled. The broker client is reduced to a `connected` flag. QoS and retain flags are not modelled, and neither are exceptions raised while publishing.
- The stdin reader thread and its queue are not modelled. The triggers drained in one cycle are given as the sequence of clock readings taken for each.
- The wall clock is reduced to its readings in one cycle, given as parameters: one at line 300, one per manual trigger at line 315, and one at line 319. That is at most two plus the number of triggers. The loop skips the reading at line 315 when auto-clear is off and the one at line 319 while no clear deadline is armed, because `and` short-circuits. The model takes these parameters but ignores a reading the loop would not take. Python's float timestamps are modelled as `real`, without rounding. Signal handling, the poll sleep and loop shutdown are not modelled.
- Reading the configuration from environment variables is not modelled. The values used by the step are the `Config` parameter.
- JSON numbers with a fractional part (Python floats) are not modelled: `int(3.7)` truncation and `str()` of floats. JSON integers are unbounded `int`s. Python limits int/str conversion to 4300 digits by default (`sys.int_info.default_max_str_digits`, Python 3.11 and the 3.7 to 3.10 security releases), and the model has no such limit: see `PyInt.ParseInt` below for `int()`. Under that limit neither `json.loads` nor `int()` yields an integer longer than 4300 digits, so the `str()` calls at lines 80, 99 and 234 never meet one.
- PyInt.ParseInt: does not accept underscores between digits or non-ASCII Unicode digits, which Python's `int()` accepts. It also has no 4300-digit limit. Python's `int()` raises `ValueError` for a longer digit string, and the bridge's `except` clauses (lines 76, 92, 115 and 129) turn that into an absent value. The model parses the string instead. For example, a stats `warningCount` of 4301 digits decides the cycle from stats in the model, while the bridge falls back to the manifest.
- PyText.Repr: escapes ASCII control characters like Python's `repr`, but prints non-ASCII non-printable characters unescaped, where Python escapes them.
- PyText.IsWordChar: counts ASCII letters, digits, `_` and the two Turkish dotted/dotless i's as word characters. Python's `\w` and `\b` also treat every other Unicode alphanumeric as a word character: letters, digits such as `٣` and numerals such as `²`. The model does not.
- Key lower-casing in `walk` is done character by character over ASCII. For the four severity names this decides membership exactly, because no non-ASCII character lower-cases into one of their letters. Python's full Unicode `str.lower` is not modelled.
- Objects with repeated keys are kept as ordered bindings, and lookup uses the first binding. Python's decoder keeps the last one, so the model agrees with the bridge only on objects whose keys are distinct.

=== FILE: bridge.dfy ===
/**
 * One whole poll cycle: extraction from the fetched documents followed by the
 * reconciler step, as the body of the bridge's `while not _shutdown` loop.
 */
module Bridge {
  import opened Json
  import opened Extractor
  import opened Reconciler
  import opened ReconcilerFacts

  /** The cycle's events, state and status line for the documents of `src`. */
  function Cycle(cfg: Config, st: State, src: Sources, clock: Clock): (o: Outcome)
    // extraction always yields a count, so the heartbeat never reads "down"
    ensures |o.state.lastLine| >= 5 && o.state.lastLine[..5] == "hb=ok"
    ensures o.state.lastWarn == Extract(src).warn.value
    ensures o.state.lastId == Extract(src).rid
  {
    var ex := Extract(src);
    var o := Step(cfg, st, ex.warn, ex.rid, clock);
    HeartbeatOk(ex.warn, o.state);
    o
  }

  /**
   * Polling the same documents again (alert-on-new off, no timers due, no
   * manual trigger) publishes nothing and prints nothing.
   */
  lemma CycleRepeatIsSilent(cfg: Config, st: State, src: Sources, c1: Clock, c2: Clock)
    requires !cfg.alertOnNew
    requires Quiet(cfg, st, c1)
    requires Quiet(cfg, Cycle(cfg, st, src, c1).state, c2)
    ensures var o1 := Cycle(cfg, st, src, c1);
            var o2 := Cycle(cfg, o1.state, src, c2);
            o2.events == [] && o2.logged == None && o2.state == o1.state
  {
    var ex := Extract(src);
    RepeatIsSilent(cfg, st, ex.warn, ex.rid, c1, c2);
  }

  /**
   * A stats document with a non-zero `warningCount` and a non-empty
   * `lastReportId` decides the cycle on its own: only the stats endpoint is
   * fetched, and the stored pair is the document's.
   */
  lemma StatsDecideTheCycle(cfg: Config, st: State, src: Sources, clock: Clock, fields: seq<Field>, n: int, id: string)
    requires src.stats == Some(JObj(fields))
    requires Get(fields, "warningCount") == JInt(n) && n != 0
    requires Get(fields, "lastReportId") == JStr(id) && id != ""
    ensures Extract(src).fetched == [StatsEndpoint]
    ensures Cycle(cfg, st, src, clock).state.lastWarn == n
    ensures Cycle(cfg, st, src, clock).state.lastId == Some(id)
  {
    assert ChosenAlias(fields, StatsWarnKeys, 0);
    assert ChosenAlias(fields, StatsIdKeys, 0);
  }
}

=== FILE: extractor.dfy ===
/**
 * The extractor: pure functions that turn the loosely shaped documents of the
 * device's API into the canonical `(warning_count, report_id)` pair, through
 * three tiers of decreasing reliability (system stats, analysis manifest, full
 * analysis report).
 *
 * Fetches are inputs: each endpoint's document is given as an `Option<JSON>`
 * (None when the request or the parse failed), and the report endpoint as a
 * function of the report id, since which report is asked for depends on data.
 */
module Extractor {
  import opened Json
  import opened PyInt
  import opened PyText

  // ---------------------------------------------------------------- alias tables

  const StatsWarnKeys: seq<string> := ["warningCount", "warnings", "warning_count"]
  const StatsIdKeys: seq<string> := ["lastReportId", "last_report_id", "last_id"]
  const EntryIdKeys: seq<string> := ["id", "report_id", "reportId", "uid"]
  const EntryWarnKeys: seq<string> := ["warnings", "warning_count", "num_warnings", "warningTotal"]
  /** The dotted report paths, already split at the dots. */
  const ReportPaths: seq<seq<string>> :=
    [["warnings"], ["warning_count"], ["num_warnings"], ["warningTotal"],
     ["analysis", "warnings"], ["summary", "warnings"]]
  const SeverityKeys: seq<string> := ["severity", "level", "type", "class"]

  /** The values of `keys` in an object, in table order. */
  function Lookups(fields: seq<Field>, keys: seq<string>): (vs: seq<JSON>)
    ensures |vs| == |keys|
    ensures forall i :: 0 <= i < |keys| ==> vs[i] == Get(fields, keys[i])
  {
    seq(|keys|, i requires 0 <= i < |keys| => Get(fields, keys[i]))
  }

  /** Alias `i` is the operand an `or` chain over `keys` evaluates to. */
  predicate ChosenAlias(fields: seq<Field>, keys: seq<string>, i: int) {
    && 0 <= i < |keys|
    && (forall j :: 0 <= j < i ==> !Truthy(Get(fields, keys[j])))
    && (Truthy(Get(fields, keys[i])) || i == |keys| - 1)
  }

  // ---------------------------------------------------------------- tier 1: stats

  /**
   * `get_stats` on the system-stats document: each field is the first truthy
   * alias (or the last alias when none is truthy), coerced with `int()` and
   * `str()` respectively.
   */
  function GetStats(js: JSON): (r: (Option<int>, Option<string>))
    ensures !js.JObj? ==> r == (None, None)
    ensures js.JObj? ==> exists i :: ChosenAlias(js.fields, StatsWarnKeys, i)
    ensures js.JObj? ==> exists i :: ChosenAlias(js.fields, StatsIdKeys, i)
    ensures forall i :: js.JObj? && ChosenAlias(js.fields, StatsWarnKeys, i) ==>
              r.0 == IntOf(Get(js.fields, StatsWarnKeys[i]))
    ensures forall i :: js.JObj? && ChosenAlias(js.fields, StatsIdKeys, i) ==>
              var v := Get(js.fields, StatsIdKeys[i]);
              r.1 == if v == JNull then None else Some(PyStr(v))
  {
    if !js.JObj? then (None, None)
    else
      var ws := Lookups(js.fields, StatsWarnKeys);
      var ls := Lookups(js.fields, StatsIdKeys);
      var warn := OrChain(ws);
      var lrid := OrChain(ls);
      assert ChosenAlias(js.fields, StatsWarnKeys, OrChainIndex(ws));
      assert ChosenAlias(js.fields, StatsIdKeys, OrChainIndex(ls));
      assert forall i :: ChosenAlias(js.fields, StatsWarnKeys, i) ==> OrChainIndex(ws) == i;
      assert forall i :: ChosenAlias(js.fields, StatsIdKeys, i) ==> OrChainIndex(ls) == i;
      (IntOf(warn), if lrid == JNull then None else Some(PyStr(lrid)))
  }

  // ---------------------------------------------------------------- tier 2: manifest

  /** `int(v)` unless `v` is a bool, which `_id` skips. */
  function NonBoolInt(v: JSON): Option<int> {
    if v.JBool? then None else IntOf(v)
  }

  /** `_id(d)`: the first alias whose value is not a bool and coerces with `int()`. */
  function IdOf(fields: seq<Field>): (r: Option<int>)
    ensures r.None? <==> forall i :: 0 <= i < |EntryIdKeys| ==> NonBoolInt(Get(fields, EntryIdKeys[i])).None?
    ensures forall i :: (0 <= i < |EntryIdKeys| && NonBoolInt(Get(fields, EntryIdKeys[i])).Some?
                         && forall j :: 0 <= j < i ==> NonBoolInt(Get(fields, EntryIdKeys[j])).None?) ==>
              r == NonBoolInt(Get(fields, EntryIdKeys[i]))
  {
    var xs := seq(|EntryIdKeys|, i requires 0 <= i < |EntryIdKeys| => NonBoolInt(Get(fields, EntryIdKeys[i])));
    assert forall i :: 0 <= i < |EntryIdKeys| ==> xs[i] == NonBoolInt(Get(fields, EntryIdKeys[i]));
    FirstSome(xs)
  }

  /** The id `_id` gives a manifest element; None also for an element that is not an object. */
  function EntryId(v: JSON): Option<int> {
    if v.JObj? then IdOf(v.fields) else None
  }

  /**
   * `k` is what `max(with_ids, key=_id)` picks: a position holding the largest
   * id, with no earlier position holding that id.
   */
  predicate IsNewest(ids: seq<Option<int>>, k: nat) {
    && k < |ids|
    && ids[k].Some?
    && (forall j :: 0 <= j < |ids| && ids[j].Some? ==> ids[j].value <= ids[k].value)
    && (forall j :: 0 <= j < k && ids[j].Some? ==> ids[j].value < ids[k].value)
  }

  /** Python's `max` with a key: scan left to right, replace the best only on a strictly larger key. */
  function NewestIndex(ids: seq<Option<int>>): (r: Option<nat>)
    ensures r.None? <==> forall j :: 0 <= j < |ids| ==> ids[j].None?
    ensures r.Some? ==> IsNewest(ids, r.value)
  {
    if |ids| == 0 then None
    else
      var n := |ids| - 1;
      var best := NewestIndex(ids[..n]);
      assert forall j :: 0 <= j < n ==> ids[..n][j] == ids[j];
      if ids[n].Some? && (best.None? || ids[n].value > ids[best.value].value)
      then Some(n)
      else best
  }

  /** Only one position is the newest: the tie-break makes the choice unique. */
  lemma NewestIsUnique(ids: seq<Option<int>>, k1: nat, k2: nat)
    requires IsNewest(ids, k1) && IsNewest(ids, k2)
    ensures k1 == k2
  {
  }

  /** The ids of all manifest elements, in order. */
  function EntryIds(m: seq<JSON>): (ids: seq<Option<int>>)
    ensures |ids| == |m|
    ensures forall i :: 0 <= i < |m| ==> ids[i] == EntryId(m[i])
  {
    seq(|m|, i requires 0 <= i < |m| => EntryId(m[i]))
  }

  /**
   * `parse_newest_entry`: the chosen entry (JNull for Python's None) and its
   * report id as a string.
   */
  function ParseNewestEntry(manifest: JSON): (r: (JSON, Option<string>))
    ensures !manifest.JArr? || |manifest.items| == 0 ==> r == (JNull, None)
    ensures manifest.JArr? && (exists j :: 0 <= j < |manifest.items| && EntryId(manifest.items[j]).Some?) ==>
              exists k: nat :: IsNewest(EntryIds(manifest.items), k)
                               && r.0 == manifest.items[k]
                               && r.1 == Some(Decimal(EntryId(manifest.items[k]).value))
    ensures manifest.JArr? && |manifest.items| > 0
            && (forall j :: 0 <= j < |manifest.items| ==> EntryId(manifest.items[j]).None?) ==>
              var last := manifest.items[|manifest.items| - 1];
              && r.0 == (if last.JObj? then last else JNull)
              && (r.1.Some? <==> last.JObj? && exists i :: 0 <= i < |EntryIdKeys| && Get(last.fields, EntryIdKeys[i]) != JNull)
              && forall i :: (last.JObj? && 0 <= i < |EntryIdKeys| && Get(last.fields, EntryIdKeys[i]) != JNull
                              && forall j :: 0 <= j < i ==> Get(last.fields, EntryIdKeys[j]) == JNull) ==>
                   r.1 == Some(PyStr(Get(last.fields, EntryIdKeys[i])))
  {
    if !manifest.JArr? || |manifest.items| == 0 then (JNull, None)
    else
      var m := manifest.items;
      var ids := EntryIds(m);
      match NewestIndex(ids)
      case Some(k) => (m[k], Some(Decimal(ids[k].value)))
      case None =>
        var last := m[|m| - 1];
        var newest := if last.JObj? then last else JNull;
        var rid := if Truthy(newest) then FallbackId(newest.fields) else None;
        (newest, rid)
  }

  /** The entry at the newest position is the one returned, with its id as the report id. */
  lemma NewestChosen(m: seq<JSON>, k: nat)
    requires IsNewest(EntryIds(m), k)
    ensures ParseNewestEntry(JArr(m)) == (m[k], Some(Decimal(EntryId(m[k]).value)))
  {
    var ids := EntryIds(m);
    NewestIsUnique(ids, k, NewestIndex(ids).value);
  }

  /** `str()` of the first alias that is present and not None. */
  function FallbackId(fields: seq<Field>): (r: Option<string>)
    ensures r.Some? <==> exists i :: 0 <= i < |EntryIdKeys| && Get(fields, EntryIdKeys[i]) != JNull
    ensures forall i :: (0 <= i < |EntryIdKeys| && Get(fields, EntryIdKeys[i]) != JNull
                         && forall j :: 0 <= j < i ==> Get(fields, EntryIdKeys[j]) == JNull) ==>
              r == Some(PyStr(Get(fields, EntryIdKeys[i])))
  {
    var xs := seq(|EntryIdKeys|, i requires 0 <= i < |EntryIdKeys| =>
                    var v := Get(fields, EntryIdKeys[i]);
                    if v == JNull then None else Some(PyStr(v)));
    assert forall i :: 0 <= i < |EntryIdKeys| ==> (xs[i].Some? <==> Get(fields, EntryIdKeys[i]) != JNull);
    FirstSome(xs)
  }

  /**
   * `count_warnings_from_manifest_entry`: `max(0, int(v))` for the first alias
   * that coerces, None for a non-object or when no alias coerces.
   */
  function CountFromManifestEntry(entry: JSON): (r: Option<int>)
    ensures !entry.JObj? ==> r == None
    ensures r.Some? ==> r.value >= 0
    ensures entry.JObj? ==>
              (r.None? <==> forall i :: 0 <= i < |EntryWarnKeys| ==> IntOf(Get(entry.fields, EntryWarnKeys[i])).None?)
    ensures forall i :: (entry.JObj? && 0 <= i < |EntryWarnKeys| && IntOf(Get(entry.fields, EntryWarnKeys[i])).Some?
                         && forall j :: 0 <= j < i ==> IntOf(Get(entry.fields, EntryWarnKeys[j])).None?) ==>
              r == Some(Max0(IntOf(Get(entry.fields, EntryWarnKeys[i])).value))
  {
    if !entry.JObj? then None
    else
      var xs := seq(|EntryWarnKeys|, i requires 0 <= i < |EntryWarnKeys| => IntOf(Get(entry.fields, EntryWarnKeys[i])));
      assert forall i :: 0 <= i < |EntryWarnKeys| ==> xs[i] == IntOf(Get(entry.fields, EntryWarnKeys[i]));
      match FirstSome(xs)
      case None => None
      case Some(n) => Some(Max0(n))
  }

  // ---------------------------------------------------------------- tier 3: report

  /** `cur = cur[p]` for each step of a path; None once a step is not a dict or the key is missing. */
  function At(doc: JSON, path: seq<string>): JSON
    decreases |path|
  {
    if |path| == 0 then doc
    else if doc.JObj? then At(Get(doc.fields, path[0]), path[1..])
    else JNull
  }

  /** `int()` of the value a dotted path reaches, None where Python raises. */
  function PathInt(doc: JSON, path: seq<string>): Option<int> {
    IntOf(At(doc, path))
  }

  predicate IsContainer(v: JSON) {
    v.JObj? || v.JArr?
  }

  /** A binding `walk` records as the object's severity: a string under `severity|level|type|class`. */
  predicate IsSeverityField(f: Field) {
    f.1.JStr? && LowerStr(f.0) in SeverityKeys
  }

  /** The severity `walk` is left holding after the loop over an object's items: the last one. */
  function LastSeverity(fields: seq<Field>): (r: Option<string>)
    ensures r.None? <==> forall i :: 0 <= i < |fields| ==> !IsSeverityField(fields[i])
    ensures r.Some? ==> exists i :: 0 <= i < |fields| && IsSeverityField(fields[i]) && fields[i].1.s == r.value
                                    && forall j :: i < j < |fields| ==> !IsSeverityField(fields[j])
  {
    if |fields| == 0 then None
    else if IsSeverityField(fields[|fields| - 1]) then Some(fields[|fields| - 1].1.s)
    else LastSeverity(fields[..|fields| - 1])
  }

  /** `if sev and re.search(r"(warn|critical)", sev, re.I)`. */
  predicate FlagsWarning(sev: Option<string>) {
    sev.Some? && |sev.value| > 0 && (Search(sev.value, "warn") || Search(sev.value, "critical"))
  }

  function Sum(xs: seq<nat>): nat {
    if |xs| == 0 then 0 else Sum(xs[..|xs| - 1]) + xs[|xs| - 1]
  }

  /** `walk`: the number of objects, at any depth, whose severity mentions warn or critical. */
  function Walk(x: JSON): nat
    decreases x
  {
    match x
    case JObj(fields) =>
      Sum(seq(|fields|, i requires 0 <= i < |fields| =>
                if IsContainer(fields[i].1) then Walk(fields[i].1) else 0))
      + (if FlagsWarning(LastSeverity(fields)) then 1 else 0)
    case JArr(items) =>
      Sum(seq(|items|, i requires 0 <= i < |items| => Walk(items[i])))
    case _ => 0
  }

  /** The number of objects at any depth of a document. */
  function ObjectCount(x: JSON): nat
    decreases x
  {
    match x
    case JObj(fields) =>
      1 + Sum(seq(|fields|, i requires 0 <= i < |fields| => ObjectCount(fields[i].1)))
    case JArr(items) =>
      Sum(seq(|items|, i requires 0 <= i < |items| => ObjectCount(items[i])))
    case _ => 0
  }

  lemma {:induction false} SumMonotone(xs: seq<nat>, ys: seq<nat>)
    requires |xs| == |ys|
    requires forall i :: 0 <= i < |xs| ==> xs[i] <= ys[i]
    ensures Sum(xs) <= Sum(ys)
  {
    if |xs| > 0 {
      SumMonotone(xs[..|xs| - 1], ys[..|ys| - 1]);
    }
  }

  /** `walk` adds at most one per object, so it never exceeds the number of objects. */
  lemma {:induction false} WalkAtMostObjects(x: JSON)
    ensures Walk(x) <= ObjectCount(x)
    decreases x
  {
    match x
    case JObj(fields) =>
      var ws := seq(|fields|, i requires 0 <= i < |fields| =>
                      if IsContainer(fields[i].1) then Walk(fields[i].1) else 0);
      var os := seq(|fields|, i requires 0 <= i < |fields| => ObjectCount(fields[i].1));
      forall i | 0 <= i < |fields|
        ensures ws[i] <= os[i]
      {
        WalkAtMostObjects(fields[i].1);
      }
      SumMonotone(ws, os);
    case JArr(items) =>
      var ws := seq(|items|, i requires 0 <= i < |items| => Walk(items[i]));
      var os := seq(|items|, i requires 0 <= i < |items| => ObjectCount(items[i]));
      forall i | 0 <= i < |items|
        ensures ws[i] <= os[i]
      {
        WalkAtMostObjects(items[i]);
      }
      SumMonotone(ws, os);
    case _ =>
  }

  /**
   * `count_warnings_from_report`: a dotted-path count clamped at 0, else the
   * severity scan when it found anything, else the whole-word count of
   * `warning` in `str(report)`.
   */
  function CountFromReport(report: JSON): (c: int)
    ensures c >= 0
    ensures report == JNull ==> c == 0
    ensures forall i :: (report.JObj? && 0 <= i < |ReportPaths| && PathInt(report, ReportPaths[i]).Some?
                         && forall j :: 0 <= j < i ==> PathInt(report, ReportPaths[j]).None?) ==>
              c == Max0(PathInt(report, ReportPaths[i]).value)
    ensures report != JNull && (!report.JObj? || forall i :: 0 <= i < |ReportPaths| ==> PathInt(report, ReportPaths[i]).None?) ==>
              c == if Walk(report) > 0 then Walk(report) else WarningWords(PyStr(report))
  {
    if report == JNull then 0
    else
      var xs := seq(|ReportPaths|, i requires 0 <= i < |ReportPaths| => PathInt(report, ReportPaths[i]));
      assert forall i :: 0 <= i < |ReportPaths| ==> xs[i] == PathInt(report, ReportPaths[i]);
      var tier := if report.JObj? then FirstSome(xs) else None;
      if tier.Some? then Max0(tier.value)
      else
        var cnt := Walk(report);
        if cnt != 0 then cnt else WarningWords(PyStr(report))
  }

  // ---------------------------------------------------------------- tier combination

  /** An endpoint the extractor fetched, in the order it fetched them. */
  datatype Fetch = StatsEndpoint | ManifestEndpoint | ReportEndpoint(id: string)

  /** What one cycle's extraction produced, and which endpoints it consulted. */
  datatype Extracted = Extracted(warn: Option<int>, rid: Option<string>, fetched: seq<Fetch>)

  /** The three documents a cycle can fetch; the report depends on the id asked for. */
  datatype Sources = Sources(stats: Option<JSON>, manifest: Option<JSON>, report: string -> Option<JSON>)

  /**
   * The body of the poll loop down to the fallback block: stats first, the
   * manifest when either stats field is missing, the report when the manifest
   * entry gave no count and a non-empty report id is known.
   */
  function Extract(src: Sources): (e: Extracted)
    ensures e.warn.Some?
    ensures |e.fetched| >= 1 && e.fetched[0] == StatsEndpoint
    ensures var (sw, sr) := GetStats(Doc(src.stats));
            sw.Some? && sr.Some? ==> e == Extracted(sw, sr, [StatsEndpoint])
    ensures var (sw, sr) := GetStats(Doc(src.stats));
            sw.Some? ==> e.warn == sw
    ensures var (sw, sr) := GetStats(Doc(src.stats));
            !(sw.Some? && sr.Some?) ==>
              && |e.fetched| >= 2 && e.fetched[1] == ManifestEndpoint
              && e.rid == (if sr.Some? then sr else ParseNewestEntry(Doc(src.manifest)).1)
    ensures var (sw, sr) := GetStats(Doc(src.stats));
            sw.None? ==> e.warn.value >= 0
    ensures var (sw, sr) := GetStats(Doc(src.stats));
            var w := CountFromManifestEntry(ParseNewestEntry(Doc(src.manifest)).0);
            (|e.fetched| == 3 <==> !(sw.Some? && sr.Some?) && w.None? && e.rid.Some? && e.rid.value != "")
    ensures |e.fetched| <= 3
    ensures |e.fetched| == 3 ==> e.rid.Some? && e.fetched[2] == ReportEndpoint(e.rid.value)
    ensures var (sw, sr) := GetStats(Doc(src.stats));
            var w := CountFromManifestEntry(ParseNewestEntry(Doc(src.manifest)).0);
            sw.None? ==>
              e.warn == if w.Some? then w
                        else if |e.fetched| == 3 then Some(CountFromReport(Doc(src.report(e.rid.value))))
                        else Some(0)
  {
    var (sw, sr) := GetStats(Doc(src.stats));
    if sw.Some? && sr.Some? then Extracted(sw, sr, [StatsEndpoint])
    else
      var (entry, rid2) := ParseNewestEntry(Doc(src.manifest));
      var rid := if sr.None? then rid2 else sr;
      var w := CountFromManifestEntry(entry);
      if w.None? && rid.Some? && rid.value != "" then
        var c := CountFromReport(Doc(src.report(rid.value)));
        Extracted(if sw.Some? then sw else Some(c), rid,
                  [StatsEndpoint, ManifestEndpoint, ReportEndpoint(rid.value)])
      else
        Extracted(if sw.Some? then sw else Some(w.GetOr(0)), rid, [StatsEndpoint, ManifestEndpoint])
  }
}

=== FILE: extractor_facts.dfy ===
/**
 * Properties of the extractor that relate several of its functions, or that
 * pin down the behaviour on the documents the bridge is known to meet.
 */
module ExtractorFacts {
  import opened Json
  import opened PyInt
  import opened PyText
  import opened Extractor

  /**
   * A zero `warningCount` is falsy, so the `or` chain moves on; with the other
   * aliases absent it lands on None and `int(None)` fails: no count at all.
   */
  lemma ZeroCountFallsThrough(fields: seq<Field>)
    requires Get(fields, "warningCount") == JInt(0)
    requires Get(fields, "warnings") == JNull && Get(fields, "warning_count") == JNull
    ensures GetStats(JObj(fields)).0 == None
  {
    assert ChosenAlias(fields, StatsWarnKeys, 2);
  }

  /** A truthy count and id under the preferred names resolve both stats fields. */
  lemma PreferredStatsResolve(fields: seq<Field>, n: int, id: string)
    requires Get(fields, "warningCount") == JInt(n) && n != 0
    requires Get(fields, "lastReportId") == JStr(id) && id != ""
    ensures GetStats(JObj(fields)) == (Some(n), Some(id))
  {
    assert ChosenAlias(fields, StatsWarnKeys, 0);
    assert ChosenAlias(fields, StatsIdKeys, 0);
  }

  /** An empty report id falls through to the next alias; if all are empty, the last one is kept as "". */
  lemma EmptyIdKeptFromLastAlias(fields: seq<Field>)
    requires Get(fields, "lastReportId") == JNull && Get(fields, "last_report_id") == JNull
    requires Get(fields, "last_id") == JStr("")
    ensures GetStats(JObj(fields)).1 == Some("")
  {
    assert ChosenAlias(fields, StatsIdKeys, 2);
  }

  /** The report id chosen from entries with ids reads back, through `int()`, as the largest id. */
  lemma {:induction false} NewestIdReadsBack(m: seq<JSON>, j: nat)
    requires j < |m| && EntryId(m[j]).Some?
    ensures var (entry, rid) := ParseNewestEntry(JArr(m));
            && rid.Some?
            && EntryId(entry).Some?
            && ParseInt(rid.value) == EntryId(entry)
            && forall i :: 0 <= i < |m| && EntryId(m[i]).Some? ==> EntryId(m[i]).value <= EntryId(entry).value
  {
    var ids := EntryIds(m);
    assert ids[j].Some?;
    var k := NewestIndex(ids).value;
    assert ParseNewestEntry(JArr(m)) == (m[k], Some(Decimal(ids[k].value)));
    ParseDecimal(ids[k].value);
  }

  /** Of two ids `a < b`, the position holding `b` is the newest, whatever the order. */
  lemma LargerIdIsNewest(a: int, b: int)
    requires a < b
    ensures NewestIndex([Some(a), Some(b)]) == Some(1)
    ensures NewestIndex([Some(b), Some(a)]) == Some(0)
    ensures NewestIndex([Some(a), None, Some(b)]) == Some(2)
  {
    assert IsNewest([Some(a), Some(b)], 1);
    NewestIsUnique([Some(a), Some(b)], 1, NewestIndex([Some(a), Some(b)]).value);
    assert IsNewest([Some(b), Some(a)], 0);
    NewestIsUnique([Some(b), Some(a)], 0, NewestIndex([Some(b), Some(a)]).value);
    assert IsNewest([Some(a), None, Some(b)], 2);
    NewestIsUnique([Some(a), None, Some(b)], 2, NewestIndex([Some(a), None, Some(b)]).value);
  }

  /**
   * Two entries `i < j` tie on the largest id: the entry returned carries that id
   * and sits at or before `i`, so the later of the two is never the one chosen.
   */
  lemma TieGoesToFirst(m: seq<JSON>, i: nat, j: nat)
    requires i < j < |m| && EntryId(m[i]).Some? && EntryId(m[i]) == EntryId(m[j])
    requires forall k :: 0 <= k < |m| && EntryId(m[k]).Some? ==> EntryId(m[k]).value <= EntryId(m[i]).value
    ensures exists k: nat :: k <= i && EntryId(m[k]) == EntryId(m[i]) && ParseNewestEntry(JArr(m)).0 == m[k]
  {
    var ids := EntryIds(m);
    assert ids[i].Some?;
    var k := NewestIndex(ids).value;
    assert k <= i;
    NewestChosen(m, k);
  }

  /** Boolean ids are skipped by `_id`, but a boolean count is `int(True) == 1` for the manifest entry. */
  lemma BoolIdSkippedBoolCountKept()
    ensures EntryId(JObj([("id", JBool(true))])) == None
    ensures CountFromManifestEntry(JObj([("warnings", JBool(true))])) == Some(1)
  {
    var e := JObj([("id", JBool(true))]);
    assert forall i :: 0 <= i < |EntryIdKeys| ==> NonBoolInt(Get(e.fields, EntryIdKeys[i])).None?;
    var w := JObj([("warnings", JBool(true))]);
    assert IntOf(Get(w.fields, EntryWarnKeys[0])) == Some(1);
  }

  /** A report with no usable count path and no severity hits is counted by its `warning` words. */
  lemma TextFallbackCountsWords(report: JSON)
    requires report != JNull && Walk(report) == 0
    requires !report.JObj? || forall i :: 0 <= i < |ReportPaths| ==> PathInt(report, ReportPaths[i]).None?
    ensures CountFromReport(report) == |MatchPositions(PyStr(report), 0)|
  {
    FindAllCountsMatches(PyStr(report), 0);
  }

  /** The severity scan never reports more hits than the report has objects. */
  lemma SeverityCountBounded(report: JSON)
    requires report != JNull
    requires !report.JObj? || forall i :: 0 <= i < |ReportPaths| ==> PathInt(report, ReportPaths[i]).None?
    requires Walk(report) > 0
    ensures 0 < CountFromReport(report) <= ObjectCount(report)
  {
    WalkAtMostObjects(report);
  }

  /** The severity test ignores case: a severity is flagged exactly when its lower-cased form is. */
  lemma SeverityMatchIgnoresCase(sev: string)
    ensures FlagsWarning(Some(sev)) == FlagsWarning(Some(LowerStr(sev)))
  {
    SearchIgnoresCase(sev, "warn");
    SearchIgnoresCase(sev, "critical");
  }

  /** So "Critical" and "WARN" are both flagged. */
  lemma UpperCaseSeveritiesFlagged()
    ensures FlagsWarning(Some("Critical"))
    ensures FlagsWarning(Some("WARN"))
  {
    assert MatchesAt("Critical", 0, "critical");
    assert MatchesAt("WARN", 0, "warn");
  }

  /** An object whose only severity says "Critical" counts once. */
  lemma CriticalSeverityCounts()
    ensures Walk(JObj([("level", JStr("Critical"))])) == 1
  {
    var fs := [("level", JStr("Critical"))];
    assert LowerStr("level") == "level";
    assert IsSeverityField(fs[0]);
    assert LastSeverity(fs) == Some("Critical");
    UpperCaseSeveritiesFlagged();
    var xs := seq(|fs|, i requires 0 <= i < |fs| => if IsContainer(fs[i].1) then Walk(fs[i].1) else 0);
    assert xs == [0];
    assert Sum(xs) == 0;
  }
}

=== FILE: json.dfy ===
/**
 * JSON values as the bridge sees them once `json.loads` has run, together with
 * the handful of Python behaviours the extractor leans on: `dict.get`,
 * truthiness, and the first-truthy rule of an `a or b or c` chain.
 *
 * Python's `None` is `JNull` throughout: a failed fetch, a failed parse and a
 * literal JSON `null` are the same value to the bridge.
 */
module Json {

  datatype Option<+T> = None | Some(value: T) {
    /** The value, or `default` for None (Python's `x if x is not None else d`). */
    function GetOr(default: T): T {
      match this
      case Some(v) => v
      case None => default
    }
  }

  /** One key/value binding of an object, in document order. */
  type Field = (string, JSON)

  /** A parsed JSON document (floats are not modelled). */
  datatype JSON =
    | JNull
    | JBool(b: bool)
    | JInt(n: int)
    | JStr(s: string)
    | JArr(items: seq<JSON>)
    | JObj(fields: seq<Field>)

  /** The document a fetch yields: nothing and `null` are both Python's None. */
  function Doc(fetched: Option<JSON>): JSON {
    fetched.GetOr(JNull)
  }

  /** `d.get(key)`: the value of the first binding of `key`, or None when absent. */
  function Get(fields: seq<Field>, key: string): JSON {
    if |fields| == 0 then JNull
    else if fields[0].0 == key then fields[0].1
    else Get(fields[1..], key)
  }

  /** A lookup finds the first binding of the key, and None when no binding has it. */
  lemma {:induction false} GetFirstBinding(fields: seq<Field>, key: string)
    ensures (forall i :: 0 <= i < |fields| ==> fields[i].0 != key) ==> Get(fields, key) == JNull
    ensures forall i :: (0 <= i < |fields| && fields[i].0 == key
                         && forall j :: 0 <= j < i ==> fields[j].0 != key) ==> Get(fields, key) == fields[i].1
  {
    if |fields| > 0 && fields[0].0 != key {
      GetFirstBinding(fields[1..], key);
      assert forall i :: 1 <= i < |fields| ==> fields[1..][i - 1] == fields[i];
    }
  }

  /** Python truthiness: None, False, 0, "", [] and {} are false. */
  predicate Truthy(v: JSON) {
    match v
    case JNull => false
    case JBool(b) => b
    case JInt(n) => n != 0
    case JStr(s) => |s| > 0
    case JArr(items) => |items| > 0
    case JObj(fields) => |fields| > 0
  }

  /**
   * The operand `v0 or v1 or ... or vn` evaluates to: the first truthy one,
   * or the last one when none is truthy.
   */
  function OrChainIndex(vs: seq<JSON>): (i: nat)
    requires |vs| > 0
    ensures i < |vs|
    ensures forall j :: 0 <= j < i ==> !Truthy(vs[j])
    ensures Truthy(vs[i]) || i == |vs| - 1
  {
    if Truthy(vs[0]) || |vs| == 1 then 0
    else 1 + OrChainIndex(vs[1..])
  }

  /** The value of a Python `or` chain over `vs`. */
  function OrChain(vs: seq<JSON>): JSON
    requires |vs| > 0
  {
    vs[OrChainIndex(vs)]
  }

  /** Index of the first present candidate, as a `for ...: try: return` loop finds it. */
  function FirstSomeIndex<T>(xs: seq<Option<T>>): (r: Option<nat>)
    ensures r.None? <==> forall i :: 0 <= i < |xs| ==> xs[i].None?
    ensures r.Some? ==> r.value < |xs| && xs[r.value].Some?
                        && forall j :: 0 <= j < r.value ==> xs[j].None?
  {
    if |xs| == 0 then None
    else if xs[0].Some? then Some(0)
    else
      match FirstSomeIndex(xs[1..])
      case None => None
      case Some(k) => Some(k + 1)
  }

  /** The first present candidate, or None. */
  function FirstSome<T>(xs: seq<Option<T>>): Option<T> {
    match FirstSomeIndex(xs)
    case None => None
    case Some(k) => xs[k]
  }
}

=== FILE: pyint.dfy ===
/**
 * Python's `int()` applied to a JSON value and `str()` applied to an int:
 * the two coercions every alias lookup of the bridge goes through.
 *
 * `int()` of a string accepts surrounding whitespace, one optional sign and
 * ASCII decimal digits; `int(True)` is 1 and `int(False)` is 0; None, lists
 * and dicts raise, which the bridge catches and treats as "absent".
 */
module PyInt {
  import opened Json

  predicate IsDigit(c: char) {
    '0' <= c <= '9'
  }

  predicate AllDigits(s: string) {
    forall i :: 0 <= i < |s| ==> IsDigit(s[i])
  }

  function DigitChar(d: nat): (c: char)
    requires d < 10
    ensures IsDigit(c)
  {
    ('0' as int + d) as char
  }

  function DigitValue(c: char): nat
    requires IsDigit(c)
  {
    c as int - '0' as int
  }

  /** Decimal digits of a natural number, most significant first, no leading zeros. */
  function Digits(n: nat): (s: string)
    ensures |s| > 0 && AllDigits(s)
    decreases n
  {
    if n < 10 then [DigitChar(n)] else Digits(n / 10) + [DigitChar(n % 10)]
  }

  /** The number a run of decimal digits denotes. */
  function DigitsValue(s: string): nat
    requires AllDigits(s)
  {
    if |s| == 0 then 0 else DigitsValue(s[..|s| - 1]) * 10 + DigitValue(s[|s| - 1])
  }

  /** `str(n)` for a Python int: an optional minus sign and the decimal digits. */
  function Decimal(n: int): string {
    if n < 0 then "-" + Digits(-n) else Digits(n)
  }

  /**
   * The characters `int()` skips around the digits. Non-ASCII whitespace is
   * first turned into a space; then only the ASCII space, tab, newline,
   * vertical tab, form feed and carriage return are skipped. The ASCII
   * separators U+001C..U+001F are not: `int` rejects them.
   */
  predicate IsSpace(c: char) {
    || c == ' ' || '\t' <= c <= '\r'
    || c == '\U{85}' || c == '\U{A0}' || c == '\U{1680}' || '\U{2000}' <= c <= '\U{200A}'
    || c == '\U{2028}' || c == '\U{2029}' || c == '\U{202F}' || c == '\U{205F}' || c == '\U{3000}'
  }

  function TrimStart(s: string): string {
    if |s| > 0 && IsSpace(s[0]) then TrimStart(s[1..]) else s
  }

  function TrimEnd(s: string): string {
    if |s| > 0 && IsSpace(s[|s| - 1]) then TrimEnd(s[..|s| - 1]) else s
  }

  function Strip(s: string): string {
    TrimEnd(TrimStart(s))
  }

  /** `int(s)` for a string `s`: None where Python raises ValueError. */
  function ParseInt(s: string): Option<int> {
    var t := Strip(s);
    if |t| > 0 && (t[0] == '+' || t[0] == '-') then
      var ds := t[1..];
      if |ds| > 0 && AllDigits(ds) then
        var v: int := DigitsValue(ds);
        Some(if t[0] == '-' then -v else v)
      else None
    else if |t| > 0 && AllDigits(t) then Some(DigitsValue(t))
    else None
  }

  /** `int(v)` for a JSON value `v`: None where Python raises. */
  function IntOf(v: JSON): Option<int> {
    match v
    case JInt(n) => Some(n)
    case JBool(b) => Some(if b then 1 else 0)
    case JStr(s) => ParseInt(s)
    case _ => None
  }

  /** `max(0, n)`. */
  function Max0(n: int): int {
    if n < 0 then 0 else n
  }

  lemma {:induction false} DigitsValueOfDigits(n: nat)
    ensures DigitsValue(Digits(n)) == n
    decreases n
  {
    if n >= 10 {
      var s := Digits(n / 10) + [DigitChar(n % 10)];
      assert s[..|s| - 1] == Digits(n / 10);
      DigitsValueOfDigits(n / 10);
    }
  }

  lemma StripUnspaced(s: string)
    requires |s| > 0 && !IsSpace(s[0]) && !IsSpace(s[|s| - 1])
    ensures Strip(s) == s
  {
  }

  /** `int(str(n)) == n`: the decimal text of any int parses back to it. */
  lemma {:induction false} ParseDecimal(n: int)
    ensures ParseInt(Decimal(n)) == Some(n)
  {
    var s := Decimal(n);
    if n < 0 {
      var ds := Digits(-n);
      assert s[1..] == ds;
      assert s[|s| - 1] == ds[|ds| - 1];
      StripUnspaced(s);
      DigitsValueOfDigits(-n);
    } else {
      StripUnspaced(s);
      DigitsValueOfDigits(n);
    }
  }

  /** Which characters around the digits `int()` accepts: no-break spaces yes, ASCII separators no. */
  lemma IntSkipsPythonWhitespace()
    ensures ParseInt("\U{A0}5\U{3000}") == Some(5)
    ensures ParseInt("\t-7\n") == Some(-7)
    ensures ParseInt("\U{1C}5") == None
    ensures ParseInt("5 5") == None
  {
    assert Strip("\U{A0}5\U{3000}") == "5";
    assert Strip("\t-7\n") == "-7";
    assert Strip("\U{1C}5") == "\U{1C}5";
    assert Strip("5 5") == "5 5";
  }
}

=== FILE: pytext.dfy ===
/**
 * The text side of the report heuristics: `str.lower()` on keys, the
 * case-insensitive regular expressions `(warn|critical)` and `\bwarning\b`,
 * and `str()` / `repr()` of a parsed JSON value.
 *
 * Characters are compared the way Python's `re.IGNORECASE` compares them for
 * these particular patterns: ASCII letters fold to lower case, and U+0130 and
 * U+0131 (dotted capital I, dotless small i) also match `i`.
 */
module PyText {
  import opened Json
  import opened PyInt

  function AsciiLower(c: char): char {
    if 'A' <= c <= 'Z' then (c as int + 32) as char else c
  }

  /** `s.lower()` restricted to ASCII letters. */
  function LowerStr(s: string): (r: string)
    ensures |r| == |s|
  {
    seq(|s|, i requires 0 <= i < |s| => AsciiLower(s[i]))
  }

  /** Does text character `c` match the lower-case pattern letter `p` under `re.I`? */
  predicate CharMatches(c: char, p: char) {
    AsciiLower(c) == p || (p == 'i' && (c == '\U{130}' || c == '\U{131}'))
  }

  /** The pattern `pat` matches `s` starting at position `i`. */
  predicate MatchesAt(s: string, i: nat, pat: string)
    decreases |pat|
  {
    i + |pat| <= |s| && (|pat| == 0 || (CharMatches(s[i], pat[0]) && MatchesAt(s, i + 1, pat[1..])))
  }

  /** A match agrees with the pattern character by character. */
  lemma {:induction false} MatchedChar(s: string, i: nat, pat: string, k: nat)
    requires MatchesAt(s, i, pat) && k < |pat|
    ensures CharMatches(s[i + k], pat[k])
    decreases k
  {
    if k > 0 {
      MatchedChar(s, i + 1, pat[1..], k - 1);
    }
  }

  /** `re.search(pat, s, re.I)` succeeds for a literal lower-case pattern. */
  predicate Search(s: string, pat: string) {
    exists i: nat | i <= |s| :: MatchesAt(s, i, pat)
  }

  /** Lower-casing the text first never changes whether a lower-case pattern matches. */
  lemma {:induction false} MatchIgnoresCase(s: string, i: nat, pat: string)
    ensures MatchesAt(s, i, pat) <==> MatchesAt(LowerStr(s), i, pat)
    decreases |pat|
  {
    if |pat| > 0 && i + |pat| <= |s| {
      assert LowerStr(s)[i] == AsciiLower(s[i]);
      MatchIgnoresCase(s, i + 1, pat[1..]);
    }
  }

  /** The same holds for a search anywhere in the text. */
  lemma SearchIgnoresCase(s: string, pat: string)
    ensures Search(s, pat) <==> Search(LowerStr(s), pat)
  {
    forall i: nat | i <= |s|
      ensures MatchesAt(s, i, pat) <==> MatchesAt(LowerStr(s), i, pat)
    {
      MatchIgnoresCase(s, i, pat);
    }
  }

  /** `\w`: letters, digits and underscore (the two `i` variants above are letters too). */
  predicate IsWordChar(c: char) {
    'a' <= c <= 'z' || 'A' <= c <= 'Z' || '0' <= c <= '9' || c == '_'
    || c == '\U{130}' || c == '\U{131}'
  }

  const Warning: string := "warning"

  /** `\bwarning\b` matches (case-insensitively) at position `i` of `s`. */
  predicate WarningAt(s: string, i: nat) {
    && MatchesAt(s, i, Warning)
    && (i == 0 || !IsWordChar(s[i - 1]))
    && (i + 7 == |s| || !IsWordChar(s[i + 7]))
  }

  /** Every character of a `warning` match is a word character. */
  lemma MatchIsWord(s: string, i: nat, k: nat)
    requires MatchesAt(s, i, Warning) && k < 7
    ensures IsWordChar(s[i + k])
  {
    MatchedChar(s, i, Warning, k);
  }

  /**
   * `len(re.findall(r"\bwarning\b", s[i..], re.I))` as the regex engine scans:
   * after a match it resumes at the match's end, otherwise one character on.
   */
  function FindAllFrom(s: string, i: nat): nat
    decreases |s| - i
  {
    if i + 7 > |s| then 0
    else if WarningAt(s, i) then 1 + FindAllFrom(s, i + 7)
    else FindAllFrom(s, i + 1)
  }

  /** The number of whole-word, case-insensitive occurrences of `warning` in `s`. */
  function WarningWords(s: string): nat {
    FindAllFrom(s, 0)
  }

  /** The positions from `i` on whose flag is set, in order. */
  function Positions(f: seq<bool>, i: nat): seq<nat>
    decreases |f| - i
  {
    if i >= |f| then []
    else (if f[i] then [i] else []) + Positions(f, i + 1)
  }

  /** The positions listed are exactly the flagged ones from `i` on. */
  lemma {:induction false} PositionsExact(f: seq<bool>, i: nat)
    ensures forall j :: j in Positions(f, i) <==> i <= j < |f| && f[j]
    decreases |f| - i
  {
    if i < |f| {
      PositionsExact(f, i + 1);
      var head := if f[i] then [i] else [];
      var rest := Positions(f, i + 1);
      assert Positions(f, i) == head + rest;
      forall j
        ensures j in Positions(f, i) <==> i <= j < |f| && f[j]
      {
        assert j in head + rest <==> j in head || j in rest;
      }
    }
  }

  /** Strictly increasing, and every element at least `lo`. */
  predicate IncreasingFrom(ps: seq<nat>, lo: nat) {
    && (forall a :: 0 <= a < |ps| ==> lo <= ps[a])
    && (forall a, b :: 0 <= a < b < |ps| ==> ps[a] < ps[b])
  }

  lemma PrependIncreasing(i: nat, rest: seq<nat>)
    requires IncreasingFrom(rest, i + 1)
    ensures IncreasingFrom([i] + rest, i)
  {
    var ps := [i] + rest;
    forall a, b | 0 <= a < b < |ps|
      ensures ps[a] < ps[b]
    {
      assert ps[b] == rest[b - 1];
    }
  }

  lemma WeakenIncreasing(ps: seq<nat>, lo: nat)
    requires IncreasingFrom(ps, lo + 1)
    ensures IncreasingFrom(ps, lo)
  {
  }

  /** The positions are listed in strictly increasing order, all at or after `i`. */
  lemma {:induction false} PositionsSorted(f: seq<bool>, i: nat)
    ensures IncreasingFrom(Positions(f, i), i)
    decreases |f| - i
  {
    if i < |f| {
      PositionsSorted(f, i + 1);
      var rest := Positions(f, i + 1);
      if f[i] {
        PrependIncreasing(i, rest);
        assert Positions(f, i) == [i] + rest;
      } else {
        WeakenIncreasing(rest, i);
        assert Positions(f, i) == rest;
      }
    }
  }

  /** Unflagged positions contribute nothing: the list from `i` equals the list from `k`. */
  lemma {:induction false} PositionsSkip(f: seq<bool>, i: nat, k: nat)
    requires i <= k <= |f|
    requires forall j :: i <= j < k ==> !f[j]
    ensures Positions(f, i) == Positions(f, k)
    decreases k - i
  {
    if i < k {
      PositionsSkip(f, i + 1, k);
    }
  }

  /** Where `\bwarning\b` matches in `s`, one flag per position. */
  function MatchFlags(s: string): (f: seq<bool>)
    ensures |f| == |s|
    ensures forall j :: 0 <= j < |s| ==> f[j] == WarningAt(s, j)
  {
    seq(|s|, j requires 0 <= j < |s| => WarningAt(s, j))
  }

  /** Every position at or after `i` where `\bwarning\b` matches, in increasing order. */
  function MatchPositions(s: string, i: nat): seq<nat> {
    Positions(MatchFlags(s), i)
  }

  /** The positions listed are exactly the match starts from `i` on, in strictly increasing order. */
  lemma MatchPositionsExact(s: string, i: nat)
    ensures forall j :: j in MatchPositions(s, i) <==> i <= j < |s| && WarningAt(s, j)
    ensures IncreasingFrom(MatchPositions(s, i), i)
  {
    PositionsExact(MatchFlags(s), i);
    PositionsSorted(MatchFlags(s), i);
  }

  /** No match starts inside another: the character before such a start is part of the first match. */
  lemma NoMatchInside(s: string, i: nat)
    requires WarningAt(s, i)
    ensures forall j :: i < j < i + 7 ==> !WarningAt(s, j)
  {
    forall j | i < j < i + 7
      ensures !WarningAt(s, j)
    {
      MatchIsWord(s, i, j - 1 - i);
    }
  }

  /** After a match, the next match is at least the pattern's length further on. */
  lemma SkipPastMatch(s: string, i: nat)
    requires i + 7 <= |s| && WarningAt(s, i)
    ensures MatchPositions(s, i) == [i] + MatchPositions(s, i + 7)
  {
    var f := MatchFlags(s);
    NoMatchInside(s, i);
    assert forall j :: i + 1 <= j < i + 7 ==> !f[j];
    PositionsSkip(f, i + 1, i + 7);
    assert Positions(f, i) == [i] + Positions(f, i + 1);
  }

  /** Too close to the end for the pattern to fit, nothing more matches. */
  lemma NoMatchAtEnd(s: string, i: nat)
    requires i <= |s| < i + 7
    ensures MatchPositions(s, i) == []
  {
    var f := MatchFlags(s);
    forall j | i <= j < |s|
      ensures !f[j]
    {
      assert !MatchesAt(s, j, Warning);
    }
    PositionsSkip(f, i, |s|);
  }

  /**
   * The scanning count equals the number of positions where the pattern
   * matches: because matches cannot overlap, skipping past a match loses none.
   */
  lemma {:induction false} FindAllCountsMatches(s: string, i: nat)
    requires i <= |s|
    ensures FindAllFrom(s, i) == |MatchPositions(s, i)|
    decreases |s| - i
  {
    if i + 7 > |s| {
      NoMatchAtEnd(s, i);
    } else if WarningAt(s, i) {
      SkipPastMatch(s, i);
      FindAllCountsMatches(s, i + 7);
    } else {
      var f := MatchFlags(s);
      assert Positions(f, i) == Positions(f, i + 1);
      FindAllCountsMatches(s, i + 1);
    }
  }

  function HexDigit(d: nat): char
    requires d < 16
  {
    if d < 10 then ('0' as int + d) as char else ('a' as int + d - 10) as char
  }

  /** One character of a string literal as `repr` writes it inside quote `q`. */
  function EscapeChar(c: char, q: char): string {
    if c == '\\' then "\\\\"
    else if c == q then ['\\', q]
    else if c == '\n' then "\\n"
    else if c == '\r' then "\\r"
    else if c == '\t' then "\\t"
    else if c < ' ' || c == '\U{7F}' then ['\\', 'x', HexDigit(c as int / 16), HexDigit(c as int % 16)]
    else [c]
  }

  function Concat(parts: seq<string>): string {
    if |parts| == 0 then "" else Concat(parts[..|parts| - 1]) + parts[|parts| - 1]
  }

  /** The parts separated by ", ", as `repr` lays out list items and dict entries. */
  function Join(parts: seq<string>): string {
    if |parts| == 0 then ""
    else if |parts| == 1 then parts[0]
    else Join(parts[..|parts| - 1]) + ", " + parts[|parts| - 1]
  }

  /** `repr(s)` of a Python string: single quotes unless only double quotes avoid escaping. */
  function QuoteStr(s: string): string {
    var q := if '\'' in s && '"' !in s then '"' else '\'';
    [q] + Concat(seq(|s|, i requires 0 <= i < |s| => EscapeChar(s[i], q))) + [q]
  }

  /** `repr(v)` of the Python value `json.loads` produced. */
  function Repr(v: JSON): string
    decreases v
  {
    match v
    case JNull => "None"
    case JBool(b) => if b then "True" else "False"
    case JInt(n) => Decimal(n)
    case JStr(s) => QuoteStr(s)
    case JArr(items) =>
      "[" + Join(seq(|items|, i requires 0 <= i < |items| => Repr(items[i]))) + "]"
    case JObj(fields) =>
      "{" + Join(seq(|fields|, i requires 0 <= i < |fields| =>
                       QuoteStr(fields[i].0) + ": " + Repr(fields[i].1))) + "}"
  }

  /** `str(v)`: a string is itself, everything else is its `repr`. */
  function PyStr(v: JSON): string {
    if v.JStr? then v.s else Repr(v)
  }
}

=== FILE: reconciler.dfy ===
/**
 * The per-cycle reconciler of the poll loop as one pure step: given the held
 * state, the canonical pair this cycle extracted, the clock readings and the
 * manual triggers drained this cycle, it returns the new state, the events
 * handed to the notifier (in order) and the status line printed, if any.
 *
 * The order inside a cycle is the loop's: the "meaningful change" gate, the
 * synthetic forced alert, the manual triggers, the auto-clear, the status line.
 */
module Reconciler {
  import opened Json
  import opened PyInt

  /** The three configuration values the step reads (environment variables in the bridge). */
  datatype Config = Config(alertOnNew: bool, forceAlertSecs: int, autoclearSecs: int)

  /**
   * What the loop keeps between cycles. A deadline or schedule of 0 is "inactive";
   * timestamps are wall-clock seconds.
   */
  datatype State = State(
    lastWarn: int,
    lastId: Option<string>,
    lastAlert: bool,
    nextForced: real,
    clearDeadline: real,
    lastLine: string)

  /** The arguments of one `mqtt_publish(state, last_id, warn_count)` call. */
  datatype Event = Event(alert: bool, id: Option<string>, count: Option<int>)

  /**
   * The clock readings of one cycle: `now` for the forced alert, one reading per
   * manual trigger drained (empty when stdin is not a terminal or nothing was
   * typed), and the reading taken for the auto-clear test.
   */
  datatype Clock = Clock(now: real, manual: seq<real>, clearNow: real)

  /** A cycle's result: new state, events in publish order, and the line printed (if any). */
  datatype Outcome = Outcome(state: State, events: seq<Event>, logged: Option<string>)

  /** The state `main` sets up before its first cycle, started at time `start`. */
  function Init(cfg: Config, start: real): (s: State)
    ensures s.lastWarn == 0 && s.lastId == None && !s.lastAlert && s.lastLine == ""
    ensures s.clearDeadline == 0.0
    ensures cfg.forceAlertSecs > 0 ==> s.nextForced == start + cfg.forceAlertSecs as real
    ensures cfg.forceAlertSecs <= 0 ==> s.nextForced == 0.0
  {
    State(0, None, false,
          if cfg.forceAlertSecs > 0 then start + cfg.forceAlertSecs as real else 0.0,
          0.0, "")
  }

  /** The alert rule: warnings present, or a new report id while alerting on new reports. */
  predicate AlertFor(cfg: Config, st: State, warn: Option<int>, rid: Option<string>) {
    warn.GetOr(0) > 0 || (cfg.alertOnNew && rid.Some? && rid != st.lastId)
  }

  /** Whether the observation differs from what was last published. */
  predicate Changed(cfg: Config, st: State, warn: Option<int>, rid: Option<string>) {
    rid != st.lastId || warn != Some(st.lastWarn) || AlertFor(cfg, st, warn, rid) != st.lastAlert
  }

  /**
   * The "meaningful change" gate: publish and record the observation when it
   * differs from the stored one. Either way the stored triple ends up equal to
   * the observation.
   */
  function Gate(cfg: Config, st: State, warn: Option<int>, rid: Option<string>): (r: (State, seq<Event>))
    ensures r.0.lastId == rid && r.0.lastWarn == warn.GetOr(0) && r.0.lastAlert == AlertFor(cfg, st, warn, rid)
    ensures r.0.nextForced == st.nextForced && r.0.clearDeadline == st.clearDeadline && r.0.lastLine == st.lastLine
    ensures r.1 == [] <==> !Changed(cfg, st, warn, rid)
    ensures r.1 != [] ==> r.1 == [Event(AlertFor(cfg, st, warn, rid), rid, warn)]
    ensures r.1 == [] ==> r.0 == st
  {
    var alert := AlertFor(cfg, st, warn, rid);
    if Changed(cfg, st, warn, rid) then
      (st.(lastId := rid, lastWarn := warn.GetOr(0), lastAlert := alert), [Event(alert, rid, warn)])
    else (st, [])
  }

  /** The deadline after an activation at time `t`: re-armed when auto-clear is configured. */
  function Arm(cfg: Config, t: real, deadline: real): real {
    if cfg.autoclearSecs > 0 then t + cfg.autoclearSecs as real else deadline
  }

  predicate ForcedDue(cfg: Config, st: State, now: real) {
    cfg.forceAlertSecs > 0 && now >= st.nextForced
  }

  /** The synthetic alert that fires every `forceAlertSecs` seconds. */
  function ForcedAlert(cfg: Config, st: State, now: real): (r: (State, seq<Event>))
    ensures !ForcedDue(cfg, st, now) ==> r == (st, [])
    ensures ForcedDue(cfg, st, now) ==>
              && r.1 == [Event(true, st.lastId, Some(st.lastWarn))]
              && r.0.lastAlert
              && now < r.0.nextForced == now + cfg.forceAlertSecs as real
              && r.0.clearDeadline == Arm(cfg, now, st.clearDeadline)
    ensures r.0.lastId == st.lastId && r.0.lastWarn == st.lastWarn && r.0.lastLine == st.lastLine
  {
    if ForcedDue(cfg, st, now) then
      (st.(lastAlert := true,
           nextForced := now + cfg.forceAlertSecs as real,
           clearDeadline := Arm(cfg, now, st.clearDeadline)),
       [Event(true, st.lastId, Some(st.lastWarn))])
    else (st, [])
  }

  /**
   * Draining the manual-trigger queue: one alert per queued line, each
   * re-arming the auto-clear deadline from its own clock reading.
   */
  function DrainManual(cfg: Config, st: State, times: seq<real>): (r: (State, seq<Event>))
    ensures |r.1| == |times|
    ensures forall i :: 0 <= i < |r.1| ==> r.1[i] == Event(true, st.lastId, Some(st.lastWarn))
    ensures r.0 == if |times| == 0 then st
                   else st.(lastAlert := true, clearDeadline := Arm(cfg, times[|times| - 1], st.clearDeadline))
    decreases |times|
  {
    if |times| == 0 then (st, [])
    else
      var st1 := st.(lastAlert := true, clearDeadline := Arm(cfg, times[0], st.clearDeadline));
      var rest := DrainManual(cfg, st1, times[1..]);
      (rest.0, [Event(true, st.lastId, Some(st.lastWarn))] + rest.1)
  }

  predicate ClearDue(st: State, now: real) {
    st.clearDeadline != 0.0 && now >= st.clearDeadline
  }

  /** The auto-clear: once the armed deadline is reached, clear the alert and disarm. */
  function AutoClear(st: State, now: real): (r: (State, seq<Event>))
    ensures !ClearDue(st, now) ==> r == (st, [])
    ensures ClearDue(st, now) ==>
              && r.1 == [Event(false, st.lastId, Some(st.lastWarn))]
              && r.0 == st.(lastAlert := false, clearDeadline := 0.0)
  {
    if ClearDue(st, now) then
      (st.(lastAlert := false, clearDeadline := 0.0), [Event(false, st.lastId, Some(st.lastWarn))])
    else (st, [])
  }

  /** How an f-string renders an optional report id. */
  function IdText(id: Option<string>): string {
    match id
    case None => "None"
    case Some(s) => s
  }

  /** The status line: heartbeat from this cycle's count, the rest from the held state. */
  function StatusLine(warn: Option<int>, st: State): string {
    "hb=" + (if warn.Some? then "ok" else "down")
    + " last_id=" + IdText(st.lastId)
    + " warnings=" + Decimal(st.lastWarn)
    + " alert=" + (if st.lastAlert then "ON" else "OFF")
  }

  /** With a count present the status line opens with a healthy heartbeat. */
  lemma HeartbeatOk(warn: Option<int>, st: State)
    requires warn.Some?
    ensures |StatusLine(warn, st)| >= 5 && StatusLine(warn, st)[..5] == "hb=ok"
  {
    var rest := " last_id=" + IdText(st.lastId) + " warnings=" + Decimal(st.lastWarn)
                + " alert=" + (if st.lastAlert then "ON" else "OFF");
    assert StatusLine(warn, st) == "hb=ok" + rest;
  }

  /** Every event reports id `rid` and count `w` (a missing count read as 0). */
  predicate Reports(events: seq<Event>, rid: Option<string>, w: int) {
    forall i :: 0 <= i < |events| ==> events[i].id == rid && events[i].count.GetOr(0) == w
  }

  lemma ReportsConcat(a: seq<Event>, b: seq<Event>, rid: Option<string>, w: int)
    requires Reports(a, rid, w) && Reports(b, rid, w)
    ensures Reports(a + b, rid, w)
  {
    forall i | 0 <= i < |a + b|
      ensures (a + b)[i].id == rid && (a + b)[i].count.GetOr(0) == w
    {
      if i >= |a| {
        assert (a + b)[i] == b[i - |a|];
      }
    }
  }

  /**
   * The publishing part of a cycle: the gate, the forced alert, the manual
   * triggers and the auto-clear, in that order. Returns the state they leave
   * and the events they publish, in order.
   */
  function Reconcile(cfg: Config, st: State, warn: Option<int>, rid: Option<string>, clock: Clock): (r: (State, seq<Event>))
    // the stored id and count are the observation's; the timer paths never touch them
    ensures r.0.lastId == rid && r.0.lastWarn == warn.GetOr(0)
    // every event of the cycle reports the cycle's id and (possibly defaulted) count
    ensures Reports(r.1, rid, warn.GetOr(0))
    // the stored alert is always the alert subscribers last received
    ensures r.0.lastAlert == if |r.1| > 0 then r.1[|r.1| - 1].alert else st.lastAlert
    ensures |clock.manual| <= |r.1| <= |clock.manual| + 3
    ensures r.0.lastLine == st.lastLine
  {
    var (s1, e1) := Gate(cfg, st, warn, rid);
    var (s2, e2) := ForcedAlert(cfg, s1, clock.now);
    var (s3, e3) := DrainManual(cfg, s2, clock.manual);
    var (s4, e4) := AutoClear(s3, clock.clearNow);
    var w := warn.GetOr(0);
    assert Reports(e1, rid, w) && Reports(e2, rid, w) && Reports(e3, rid, w) && Reports(e4, rid, w);
    ReportsConcat(e1, e2, rid, w);
    ReportsConcat(e1 + e2, e3, rid, w);
    ReportsConcat(e1 + e2 + e3, e4, rid, w);
    assert |e3| > 0 ==> e3[|e3| - 1].alert;
    (s4, e1 + e2 + e3 + e4)
  }

  /** The timers a cycle leaves: the forced schedule moves only when it fired, and a reached deadline is disarmed. */
  lemma ReconcileTimers(cfg: Config, st: State, warn: Option<int>, rid: Option<string>, clock: Clock)
    ensures var r := Reconcile(cfg, st, warn, rid, clock);
            && (r.0.clearDeadline == 0.0 || clock.clearNow < r.0.clearDeadline)
            && (ForcedDue(cfg, st, clock.now) ==> r.0.nextForced == clock.now + cfg.forceAlertSecs as real)
            && (!ForcedDue(cfg, st, clock.now) ==> r.0.nextForced == st.nextForced)
  {
    var (s1, e1) := Gate(cfg, st, warn, rid);
    assert ForcedDue(cfg, s1, clock.now) == ForcedDue(cfg, st, clock.now);
  }

  /**
   * One cycle of the poll loop after extraction: publish, then print the
   * status line if it changed. `warn` and `rid` are the extracted pair (`warn`
   * may be None for the step, though extraction never yields None).
   */
  function Step(cfg: Config, st: State, warn: Option<int>, rid: Option<string>, clock: Clock): (o: Outcome)
    ensures o.state.lastId == rid && o.state.lastWarn == warn.GetOr(0)
    ensures Reports(o.events, rid, warn.GetOr(0))
    ensures o.state.lastAlert == if |o.events| > 0 then o.events[|o.events| - 1].alert else st.lastAlert
    ensures |clock.manual| <= |o.events| <= |clock.manual| + 3
    ensures o.state.clearDeadline == 0.0 || clock.clearNow < o.state.clearDeadline
    ensures ForcedDue(cfg, st, clock.now) ==> o.state.nextForced == clock.now + cfg.forceAlertSecs as real
    ensures !ForcedDue(cfg, st, clock.now) ==> o.state.nextForced == st.nextForced
    // the line is printed only when it differs from the previous one, and describes the new state
    ensures o.logged.Some? <==> StatusLine(warn, o.state) != st.lastLine
    ensures o.state.lastLine == StatusLine(warn, o.state)
    ensures o.logged.Some? ==> o.logged.value == o.state.lastLine
  {
    var (s4, events) := Reconcile(cfg, st, warn, rid, clock);
    ReconcileTimers(cfg, st, warn, rid, clock);
    var line := StatusLine(warn, s4);
    if line != s4.lastLine then Outcome(s4.(lastLine := line), events, Some(line))
    else Outcome(s4, events, None)
  }

  const AlertTopic: string := "alert/state"
  const IdTopic: string := "last_report_id/state"
  const CountTopic: string := "last_warning_count/state"

  /**
   * `mqtt_publish`: the (topic under the device's base topic, payload) pairs it
   * sends, one per field that is not None, nothing when no client is connected.
   */
  function Publish(connected: bool, alert: Option<bool>, id: Option<string>, count: Option<int>): (msgs: seq<(string, string)>)
    ensures !connected ==> msgs == []
    ensures connected ==> |msgs| == (if alert.Some? then 1 else 0) + (if id.Some? then 1 else 0) + (if count.Some? then 1 else 0)
    ensures connected && alert.Some? ==> msgs[0] == (AlertTopic, if alert.value then "ON" else "OFF")
    ensures connected && id.Some? ==> (IdTopic, id.value) in msgs
    // the published count is never negative, and reads back as the clamped count
    ensures connected && count.Some? ==>
              && msgs[|msgs| - 1].0 == CountTopic
              && AllDigits(msgs[|msgs| - 1].1)
              && ParseInt(msgs[|msgs| - 1].1) == Some(Max0(count.value))
  {
    if !connected then []
    else
      var a := if alert.Some? then [(AlertTopic, if alert.value then "ON" else "OFF")] else [];
      var i := if id.Some? then [(IdTopic, id.value)] else [];
      var c := if count.Some? then [(CountTopic, Decimal(Max0(count.value)))] else [];
      ParseDecimal(Max0(count.GetOr(0)));
      a + i + c
  }

  /** The messages one event turns into. */
  function PublishEvent(connected: bool, e: Event): seq<(string, string)> {
    Publish(connected, Some(e.alert), e.id, e.count)
  }
}

=== FILE: reconciler_facts.dfy ===
/**
 * Properties of the reconciler across one or several cycles: idempotence of
 * the publish gate, edge-triggered alerts, the forced-alert schedule, the
 * auto-clear, and what the notifier is finally sent.
 */
module ReconcilerFacts {
  import opened Json
  import opened PyInt
  import opened Reconciler

  /** No timer or manual trigger acts in this cycle: only the gate can publish. */
  predicate Quiet(cfg: Config, st: State, clock: Clock) {
    && !ForcedDue(cfg, st, clock.now)
    && |clock.manual| == 0
    && !ClearDue(st, clock.clearNow)
  }

  /** In a quiet cycle the events are exactly the gate's: one iff the observation changed. */
  lemma QuietCyclePublishesOnChange(cfg: Config, st: State, warn: Option<int>, rid: Option<string>, clock: Clock)
    requires Quiet(cfg, st, clock)
    ensures var o := Step(cfg, st, warn, rid, clock);
            && (|o.events| == 1 <==> Changed(cfg, st, warn, rid))
            && (|o.events| == 0 <==> !Changed(cfg, st, warn, rid))
            && (|o.events| == 1 ==> o.events[0] == Event(AlertFor(cfg, st, warn, rid), rid, warn))
  {
    var (s1, e1) := Gate(cfg, st, warn, rid);
    assert ForcedAlert(cfg, s1, clock.now) == (s1, []);
    assert DrainManual(cfg, s1, clock.manual) == (s1, []);
    assert AutoClear(s1, clock.clearNow) == (s1, []);
  }

  /**
   * Feeding the same extracted pair again, with alert-on-new off and no timers
   * due, publishes nothing, prints nothing and changes nothing.
   */
  lemma RepeatIsSilent(cfg: Config, st: State, warn: Option<int>, rid: Option<string>, c1: Clock, c2: Clock)
    requires !cfg.alertOnNew && warn.Some?
    requires Quiet(cfg, st, c1)
    requires Quiet(cfg, Step(cfg, st, warn, rid, c1).state, c2)
    ensures var o1 := Step(cfg, st, warn, rid, c1);
            var o2 := Step(cfg, o1.state, warn, rid, c2);
            o2.events == [] && o2.logged == None && o2.state == o1.state
  {
    var o1 := Step(cfg, st, warn, rid, c1);
    QuietCyclePublishesOnChange(cfg, st, warn, rid, c1);
    QuietCyclePublishesOnChange(cfg, o1.state, warn, rid, c2);
  }

  /** A missing count never equals the stored one, so every cycle without a count publishes. */
  lemma MissingCountAlwaysPublishes(cfg: Config, st: State, rid: Option<string>, clock: Clock)
    requires Quiet(cfg, st, clock)
    ensures Step(cfg, st, None, rid, clock).events == [Event(AlertFor(cfg, st, None, rid), rid, None)]
  {
    QuietCyclePublishesOnChange(cfg, st, None, rid, clock);
  }

  /** Warnings appearing under an unchanged report id raise exactly one alert event. */
  lemma WarningsRaiseOneAlert(cfg: Config, st: State, n: int, clock: Clock)
    requires !st.lastAlert && n > 0
    requires Quiet(cfg, st, clock)
    ensures Step(cfg, st, Some(n), st.lastId, clock).events == [Event(true, st.lastId, Some(n))]
    ensures Step(cfg, st, Some(n), st.lastId, clock).state.lastAlert
  {
    QuietCyclePublishesOnChange(cfg, st, Some(n), st.lastId, clock);
  }

  /**
   * With alert-on-new, a new report id alone raises the alert; the next cycle
   * with the same id and no warnings lowers it again.
   */
  lemma NewReportAlertLastsOneCycle(cfg: Config, st: State, id: string, n: int, c1: Clock, c2: Clock)
    requires cfg.alertOnNew && st.lastId != Some(id) && n <= 0
    requires Quiet(cfg, st, c1)
    requires Quiet(cfg, Step(cfg, st, Some(n), Some(id), c1).state, c2)
    ensures var o1 := Step(cfg, st, Some(n), Some(id), c1);
            var o2 := Step(cfg, o1.state, Some(n), Some(id), c2);
            o1.events == [Event(true, Some(id), Some(n))] && o2.events == [Event(false, Some(id), Some(n))]
  {
    var o1 := Step(cfg, st, Some(n), Some(id), c1);
    QuietCyclePublishesOnChange(cfg, st, Some(n), Some(id), c1);
    QuietCyclePublishesOnChange(cfg, o1.state, Some(n), Some(id), c2);
  }

  /** A cycle that finds no report id forgets the stored one and publishes that. */
  lemma ReportIdCanBeLost(cfg: Config, st: State, warn: Option<int>, clock: Clock)
    requires st.lastId.Some?
    requires Quiet(cfg, st, clock)
    ensures var o := Step(cfg, st, warn, None, clock);
            o.state.lastId == None && |o.events| == 1 && o.events[0].id == None
  {
    QuietCyclePublishesOnChange(cfg, st, warn, None, clock);
  }

  /** The first forced alert fires at the first cycle whose clock reaches start + interval. */
  lemma FirstForcedAlertAfterInterval(cfg: Config, start: real, warn: Option<int>, rid: Option<string>, clock: Clock)
    requires cfg.forceAlertSecs > 0
    ensures var st := Init(cfg, start);
            var gated := Gate(cfg, st, warn, rid);
            (ForcedAlert(cfg, gated.0, clock.now).1 != [] <==> clock.now >= start + cfg.forceAlertSecs as real)
  {
  }

  /**
   * A forced alert with no real warnings is withdrawn by the very next poll:
   * the gate sees the data-derived alert (off) differ from the stored one (on)
   * and publishes it, while the auto-clear deadline stays armed.
   */
  lemma ForcedAlertWithdrawnNextPoll(cfg: Config, st: State, n: int, rid: Option<string>, c1: Clock, c2: Clock)
    requires !cfg.alertOnNew && n <= 0 && cfg.autoclearSecs > 0
    requires ForcedDue(cfg, Gate(cfg, st, Some(n), rid).0, c1.now)
    requires |c1.manual| == 0 && c1.clearNow < c1.now + cfg.autoclearSecs as real
    requires Quiet(cfg, Step(cfg, st, Some(n), rid, c1).state, c2)
    ensures var o1 := Step(cfg, st, Some(n), rid, c1);
            var o2 := Step(cfg, o1.state, Some(n), rid, c2);
            && o1.events[|o1.events| - 1] == Event(true, rid, Some(n))
            && o2.events == [Event(false, rid, Some(n))]
            && o2.state.clearDeadline == c1.now + cfg.autoclearSecs as real
  {
    var (s1, e1) := Gate(cfg, st, Some(n), rid);
    var (s2, e2) := ForcedAlert(cfg, s1, c1.now);
    assert DrainManual(cfg, s2, c1.manual) == (s2, []);
    assert !ClearDue(s2, c1.clearNow);
    var o1 := Step(cfg, st, Some(n), rid, c1);
    assert o1.state.lastAlert;
    QuietCyclePublishesOnChange(cfg, o1.state, Some(n), rid, c2);
  }

  /**
   * Once the armed deadline is reached the cycle ends with exactly one clear
   * event, the alert is off and the deadline disarmed, so no later cycle clears
   * again until something re-arms it.
   */
  lemma AutoClearFiresOnce(cfg: Config, st: State, warn: Option<int>, rid: Option<string>, clock: Clock, later: real)
    requires !ForcedDue(cfg, st, clock.now) && |clock.manual| == 0
    requires ClearDue(st, clock.clearNow)
    ensures var o := Step(cfg, st, warn, rid, clock);
            && o.events[|o.events| - 1] == Event(false, rid, Some(warn.GetOr(0)))
            && |o.events| <= 2
            && (forall i :: 0 <= i < |o.events| - 1 ==> o.events[i].alert == AlertFor(cfg, st, warn, rid))
            && !o.state.lastAlert
            && !ClearDue(o.state, later)
  {
    var (s1, e1) := Gate(cfg, st, warn, rid);
    assert ForcedAlert(cfg, s1, clock.now) == (s1, []);
    assert DrainManual(cfg, s1, clock.manual) == (s1, []);
  }

  /**
   * Manual triggers each publish an alert as the cycle's last events, and the
   * last one sets the clear deadline, whether or not the forced alert also fired.
   */
  lemma ManualTriggersArmFromLast(cfg: Config, st: State, warn: Option<int>, rid: Option<string>, clock: Clock)
    requires |clock.manual| > 0
    requires cfg.autoclearSecs > 0
    requires clock.clearNow < clock.manual[|clock.manual| - 1] + cfg.autoclearSecs as real
    ensures var o := Step(cfg, st, warn, rid, clock);
            && o.state.lastAlert
            && o.state.clearDeadline == clock.manual[|clock.manual| - 1] + cfg.autoclearSecs as real
            && |o.events| >= |clock.manual|
            && forall i :: |o.events| - |clock.manual| <= i < |o.events| ==> o.events[i] == Event(true, rid, Some(warn.GetOr(0)))
  {
    var (s1, e1) := Gate(cfg, st, warn, rid);
    var (s2, e2) := ForcedAlert(cfg, s1, clock.now);
    var (s3, e3) := DrainManual(cfg, s2, clock.manual);
    assert !ClearDue(s3, clock.clearNow);
    var r := Reconcile(cfg, st, warn, rid, clock);
    assert r.1 == e1 + e2 + e3;
    forall i | |r.1| - |clock.manual| <= i < |r.1|
      ensures r.1[i] == Event(true, rid, Some(warn.GetOr(0)))
    {
      assert r.1[i] == e3[i - |e1 + e2|];
    }
  }

  /**
   * What subscribers receive for an event: a count, even a negative one kept
   * from the stats tier, is published clamped at zero.
   */
  lemma PublishedCountNeverNegative(e: Event)
    requires e.count.Some?
    ensures var msgs := PublishEvent(true, e);
            && msgs[|msgs| - 1] == (CountTopic, Decimal(Max0(e.count.value)))
            && ParseInt(msgs[|msgs| - 1].1) == Some(Max0(e.count.value))
            && msgs[|msgs| - 1].1[0] != '-'
  {
    var msgs := PublishEvent(true, e);
    assert AllDigits(msgs[|msgs| - 1].1);
  }

  /** A negative count is stored and published as is by the step; only the notifier clamps it. */
  lemma NegativeCountStoredUnclamped(cfg: Config, st: State, n: int, rid: Option<string>, clock: Clock)
    requires n < 0 && st.lastWarn != n
    requires Quiet(cfg, st, clock)
    ensures var o := Step(cfg, st, Some(n), rid, clock);
            && o.state.lastWarn == n
            && o.events[0].count == Some(n)
            && var msgs := PublishEvent(true, o.events[0]);
               msgs[|msgs| - 1] == (CountTopic, "0")
  {
    QuietCyclePublishesOnChange(cfg, st, Some(n), rid, clock);
    assert Decimal(Max0(n)) == "0";
  }
}
